=== FILE: README.md ===
# Anonymous stand-visit register: a Dafny model of its visit ledger and report delivery

The application hands each visitor an anonymous identity from a remote
collector, records which of the `STAND_COUNT` (4) stands the visitor has scanned,
and reports completion to the collector when the ledger holds `STAND_COUNT`
distinct stand numbers (not necessarily whole ones, see "## Findings") and
completion is not yet reported. A report that fails
is queued in the browser's storage and resent later, so the collector may
receive it more than once. This project models that bookkeeping, which is the `App` component
of `src/App.tsx`:

- `Ledger` (`ledger.dfy`): visits, the deduplicating `Record`, `UniqueCount`
  (`visitsUniqueCount`), and the check that a scanned stand number is valid.
- `AnonIdentity` (`identity.dfy`): `String(id)` for the collector's integer id,
  with its read-back, and JavaScript truthiness of a stored id.
- `Collector` (`collector.dfy`): the requests sent to the collector and the
  replies it can give. A reply is an input to the model.
- `PendingQueue` (`pending.dfy`): the `pendingReports` queue and its filtering
  by identity (`clearPendingReport`).
- `StandApp` (`app.dfy`): class `App`. Its fields are the durable store
  (`store`, the four localStorage keys), the component state (`anonId`,
  `visits`, `reported`, `status`) and `requests`, the log of every request
  sent. Each handler is a method. `Valid()` is the invariant they keep: no
  stand repeats and every stand is valid; a stored id is never empty;
  `reported` mirrors the store; the component's id is the stored one.
  `PageLoad` runs the component's mount sequence.
- `Scenarios` (`scenarios.dfy`): properties spanning several handler calls,
  proved from the handlers' contracts.

Network replies (`AnonReply`, `ReportReply`) and timestamps are parameters.
`flushPending` takes one reply per queued entry, in order. A missing reply
counts as a failed resend.

Behaviours of `src/App.tsx` the model keeps:
- An id that is negative is accepted: `!body.id` rejects only a missing id or 0.
- `flushPending` counts any 2xx JSON reply as delivered. It does not look at
  `success`, and it never sets `reported`. A report delivered by replay
  therefore leaves `reported` false (`Scenarios.QueueThenRecover`).
- `queuePendingReport` appends without merging entries of the same identity.
- On a page load, the visits effect runs before start-up has put the identity
  into component state. A complete but unreported ledger found on load is
  therefore not reported then. The report fails for want of an identity and
  is not queued either (`Delivery.Dropped`, `StandApp.PageLoad`).

## Model

| member | source | states |
|---|---|---|
| `Ledger.UniqueCount` | src/App.tsx:93-95 | the distinct-stand count never exceeds the ledger's length, and equals it exactly when no stand repeats |
| `Ledger.StandSetSize` | src/App.tsx:93-95 | the set of stands built from the ledger has at most one element per visit, and exactly one per visit iff no stand repeats |
| `Ledger.InStandSet` | src/App.tsx:94 | a stand is in the set built by `new Set(visits.map(...))` iff some visit has that stand (`visits.some`) |
| `Ledger.UniqueCountOrderFree` | src/App.tsx:93-95 | two ledgers that visited the same stands have the same count, whatever the order or repetition |
| `Ledger.RecordSpec` | src/App.tsx:99-105 | recording keeps the old ledger as a prefix, never repeats a stand, adds the stand to the stand set, grows by one exactly when the stand is new, and the count then equals the length |
| `Ledger.RecordIdempotent` | src/App.tsx:99-103 | rescanning a stand at any later time leaves the ledger unchanged (first recording wins) |
| `Ledger.RecordKeepsLedger` | src/App.tsx:97-107 | recording a valid stand keeps the ledger free of repeats and of invalid stands |
| `Ledger.RecordAllSpec` | src/App.tsx:99-105 | after any series of scans the ledger holds each stand seen before or scanned exactly once |
| `Ledger.StandSetFront` | src/App.tsx:94 | the stand set of a non-empty ledger is its first stand plus the stand set of the rest |
| `Ledger.ScansCountDistinctStands` | src/App.tsx:99-105 | scanning into an empty ledger gives a count and a length both equal to the number of distinct stands scanned |
| `Ledger.AllStandNumbers` | src/App.tsx:6 | the valid stand numbers are exactly STAND_COUNT values |
| `Ledger.StandSetOfStands` | src/App.tsx:58-60 | a ledger of valid stands has only valid stand numbers in its stand set |
| `Ledger.SubsetCard` | src/App.tsx:93-95 | a subset is no larger than its superset, and equal to it when it is as large |
| `Ledger.UniqueCountBounded` | src/App.tsx:58-63 | a ledger of valid stands never counts more than STAND_COUNT distinct stands |
| `Ledger.CompleteIffAllVisited` | src/App.tsx:75 | for valid stands, the count reaches STAND_COUNT iff every stand 1..STAND_COUNT has been visited |
| `Ledger.PassesRangeCheckAsWritten` | src/App.tsx:59 | the range check as written accepts only a finite number (never NaN or an infinity), one between 1 and STAND_COUNT, fractions included |
| `Ledger.IsStandNumber` | src/App.tsx:59 | the corrected check accepts exactly what the written check accepts, less the fractional numbers |
| `Ledger.Visited` | src/App.tsx:99 | `visits.some((v) => v.stand === stand)`: some visit has that stand |
| `Ledger.StandSet` | src/App.tsx:94 | `new Set(visits.map((v) => v.stand))`: the set of the ledger's stands (its membership and size are stated by `InStandSet` and `StandSetSize`) |
| `Ledger.Record` | src/App.tsx:99-105 | recording keeps the old ledger as a prefix, adds at most one visit, and leaves the stand visited |
| `Ledger.FractionalScansAllRecorded` | src/App.tsx:99-105 | the scans 1, 1.5, 2 and 2.5 are all new stands, so each is appended |
| `Ledger.FractionalStandsCompleteEarly` | src/App.tsx:59 | the written check accepts 1, 1.5, 2 and 2.5, and these four scans complete the ledger without stands 3 and 4 |
| `AnonIdentity.Truthy` | src/App.tsx:85 | a stored id counts as present iff it is a non-empty string (also the `!id` tests at lines 110 and 134) |
| `AnonIdentity.DigitChar` | src/App.tsx:89 | a digit becomes the character whose code is '0' plus the digit |
| `AnonIdentity.DigitString` | src/App.tsx:89 | the decimal form of a natural number is non-empty, made of digits, and has no leading zero unless the number is 0 |
| `AnonIdentity.IntString` | src/App.tsx:89-90 | `String(id)` is never empty, so a stored id always counts as cached |
| `AnonIdentity.DigitStringRoundTrip` | src/App.tsx:89 | the digits read back to the number written |
| `AnonIdentity.IntStringRoundTrip` | src/App.tsx:89-90 | the stored string reads back to the collector's id |
| `AnonIdentity.IntStringInjective` | src/App.tsx:89-90 | distinct ids are stored as distinct strings |
| `Collector.Acknowledges` | src/App.tsx:123 | the completion report counts as accepted only when a body arrives and its `success` is truthy |
| `Collector.Resolves` | src/App.tsx:150-160 | the replay counts any body that arrives as delivered |
| `Collector.AcknowledgedIsResolved` | src/App.tsx:150-160 | every reply the completion report accepts, the replay accepts too; a 2xx body whose `success` is false is accepted by the replay only |
| `PendingQueue.Remaining` | src/App.tsx:142 | filtering never lengthens the queue |
| `PendingQueue.RemainingMembership` | src/App.tsx:140-144 | an entry survives the filter iff it was queued and its identity is not removed |
| `PendingQueue.RemainingExactly` | src/App.tsx:140-144 | the same for every entry at once |
| `PendingQueue.RemainingUntouched` | src/App.tsx:142 | a queue with no entry of the removed identities is left as it is |
| `PendingQueue.RemainingConcat` | src/App.tsx:142 | filtering works piecewise over concatenation, so surviving entries keep their order |
| `PendingQueue.RemainingTwice` | src/App.tsx:142 | removing one set of identities then another equals removing both |
| `PendingQueue.RemainingIdempotent` | src/App.tsx:140-144 | clearing an identity twice is the same as clearing it once |
| `StandApp.Resend` | src/App.tsx:150-158 | the replay resends a queued entry with its own identity, visits and stored timestamp |
| `StandApp.ResolvedIdsSpec` | src/App.tsx:148-165 | an identity is cleared by the replay iff one of its entries had its resend resolve |
| `StandApp.ResolvedIdsStep` | src/App.tsx:148-165 | each replayed entry whose resend resolves clears its identity from what remains |
| `StandApp.App.Load` | src/App.tsx:35-46 | on load the ledger and `reported` come from the store; the component's id is unset and the status is empty |
| `StandApp.App.EnsureAnonId` | src/App.tsx:83-91 | a cached id is returned with no request and no write; otherwise one request is sent, a missing or zero id is an error with no write, and a good id is stored as `String(id)` and returned |
| `StandApp.App.HandleStandVisit` | src/App.tsx:97-107 | a known stand leaves the ledger unchanged, a new one is appended at the end; the ledger stays free of repeats with count = length <= STAND_COUNT |
| `StandApp.StartupId` | src/App.tsx:83-91 | the identity start-up obtains, the stored one or `String(id)` of the collector's id, is never empty |
| `StandApp.App.Mount` | src/App.tsx:49-70 | start-up sends one `newAnon` request exactly when no id is cached; it succeeds iff the id is cached or the collector's reply carries a present, non-zero id, and then the id is the cached one or `String(id)`; an identity failure sets the network-error status and leaves the store, ledger and id unchanged; otherwise the id is set, an invalid stand sets the invalid-QR status and leaves the ledger, and a valid one is recorded with the already-registered or registered-locally status |
| `StandApp.App.ClearPendingReport` | src/App.tsx:140-144 | the queue loses exactly the entries of that identity; nothing else in the store changes |
| `StandApp.App.QueuePendingReport` | src/App.tsx:133-138 | with an identity, exactly one entry is appended at the end; without one, the store is unchanged |
| `StandApp.App.ReportComplete` | src/App.tsx:109-131 | without an identity nothing is sent or changed; otherwise one report is sent, and it succeeds iff the body's `success` is truthy, which sets `reported` and clears the identity's queued entries |
| `StandApp.App.VisitsEffect` | src/App.tsx:73-81 | the ledger is persisted; a report is attempted iff `reported` was false and the count is STAND_COUNT; `reported` becomes true only on an acknowledgement, which sets the success status; a failure queues one entry, or none without an identity, and leaves the reporting status |
| `StandApp.App.ResendPending` | src/App.tsx:149-164 | one replay step sends the entry and, if the send resolved, clears its identity and sets the synced status |
| `StandApp.App.FlushPending` | src/App.tsx:146-166 | every queued entry is resent once, in order; the queue keeps exactly the entries whose identity had no resolved resend; `reported` is untouched |
| `StandApp.App.ResetAll` | src/App.tsx:174-180 | the store is empty, no id, no visits, not reported |
| `StandApp.PageLoad` | src/App.tsx:34-81 | a page load sends at most two requests, and sends a completion report only when its own scan was a new valid stand that completed an unreported ledger. The resulting state is given in full: the id start-up obtained (or none); the ledger, with the scanned stand recorded at `visitTs` when start-up succeeded and the stand is valid; the requests (`newAnon` when uncached, then the report stamped `sendTs` when due); `reported`, set only by an acknowledged report; and the store, whose queue loses the identity's entries on acknowledgement or gains one entry stamped `queueTs` on failure; and the status: network error when start-up fails, empty without a stand, invalid-QR for an invalid stand, success or a standing "reporting" after a due report that is acknowledged or not, else already-registered or registered-locally |
| `Scenarios.IdentityIsStable` | src/App.tsx:83-91 | after a successful identity request a second one returns the same id, and at most one request goes out |
| `Scenarios.ResetStartsOver` | src/App.tsx:174-180 | after a reset the next identity request goes to the collector, the ledger is empty and the queue is empty |
| `Scenarios.QueueThenRecover` | src/App.tsx:146-166 | a failed report is queued and a resolved replay empties the queue, leaving `reported` false |
| `Scenarios.NoSecondReport` | src/App.tsx:75 | once reported, the visits effect sends nothing and changes only the persisted ledger |

## Findings

| source | as written | input that shows it | evidently intended | confidence | as-written member | corrected member |
|---|---|---|---|---|---|---|
| src/App.tsx:59 | `!Number.isNaN(sid) && sid >= 1 && sid <= STAND_COUNT` accepts fractional stand numbers | addresses with `?stand=1`, `?stand=1.5`, `?stand=2`, `?stand=2.5`: the count reaches 4 and completion is reported although stands 3 and 4 were never visited | accept only whole stand numbers 1..STAND_COUNT, so that completion means every stand was visited | medium, not executed | `Ledger.FractionalStandsCompleteEarly` | `Ledger.CompleteIffAllVisited` |

The rest of the model uses the corrected check (`Ledger.IsStandNumber`, used by
`StandApp.App.Mount`).

## Left out

- `api/gas-proxy.ts` only relays HTTP requests to the collector. It is not part of this model.
- `fetchJson`, `fetch` and the collector are not modelled. Each call's outcome is an `AnonReply` or `ReportReply` parameter. HTTP status codes and JSON parsing of replies are folded into those values.
- `qsGet` and `hideQueryString` (page address and history) are not modelled. Start-up receives the already-converted `Number(stand)` value, or nothing when the parameter is absent or empty.
- JSON serialisation of the localStorage values and the parse fallback at lines 37-41 are not modelled. The store holds typed values.
- `StandApp.App.Load`: requires the store to satisfy what the application itself writes there. A store edited by other means (repeated or invalid stands, an empty id) is not modelled.
- `StandApp.App.HandleStandVisit`: requires a valid whole stand number. The source function checks nothing itself, and its only caller (line 59) checks the range 1..STAND_COUNT but not that the number is whole. The ledger invariants (`AllStands` in `Valid()`, `Ledger.UniqueCountBounded`, a count of at most STAND_COUNT) therefore hold for the corrected program only; the program as written can count more than STAND_COUNT stands (scans 1, 1.5, 2, 2.5 and 3 give 5).
- `StandApp.App.Mount`: uses the corrected check `Ledger.IsStandNumber`. A fractional stand such as `Number("1.5")`, which line 59 lets through and the source records, is rejected here with the invalid-QR status. The written behaviour is modelled by `Ledger.PassesRangeCheckAsWritten` and `Ledger.FractionalStandsCompleteEarly`.
- React scheduling is not modelled: asynchronous interleaving, stale closures (`handleStandVisit` reads the `visits` captured at mount) and functional state updates. Handlers and effects are method calls run one after the other. `PageLoad` fixes one order for the mount sequence.
- The `online` listener (lines 168-172) and the two buttons are not modelled. `FlushPending` and `ResetAll` are called directly.
- `new Date().toISOString()` is not modelled; timestamps are opaque `Timestamp` parameters.
- Transient status texts that a later text overwrites in the same call are not modelled ("Registrando visita…"). Console logging is not modelled either.
- Collector ids are modelled as integers only. JavaScript prints numbers of 10^21 or more in exponent form, which `IntString` does not model.
- The JSX rendering (lines 182-222) is not modelled.

=== FILE: app.dfy ===
/**
 * The `App` component's bookkeeping: the durable store (localStorage), the
 * component state, and the handlers that move between them. Network replies
 * and timestamps are parameters; every request sent is logged in `requests`.
 */
module StandApp {
  import opened Wrappers
  import opened Ledger
  import opened AnonIdentity
  import opened Collector
  import opened PendingQueue

  /** The localStorage keys `anonId`, `visits`, `reported` and `pendingReports`. */
  datatype Store = Store(
    anonId: Option<string>,
    visits: seq<Visit>,
    reported: bool,
    pendingReports: seq<PendingReport>)

  /** The store after `localStorage.clear()`: every key absent. */
  const EmptyStore := Store(None, [], false, [])

  /** What the application itself keeps true of its store. */
  predicate WellFormedStore(s: Store)
  {
    && LedgerOk(s.visits)
    && (s.anonId.Some? ==> s.anonId.value != "")
    && forall i :: 0 <= i < |s.pendingReports| ==> s.pendingReports[i].anonId != ""
  }

  /** The status line shown to the visitor (the empty string is `Idle`). */
  datatype Status =
    | Idle
    | AlreadyRegistered(stand: real)
    | RegisteredLocally(stand: real)
    | InvalidQr
    | NetworkError
    | Reporting
    | ReportedOk
    | SyncedPending
    | CacheCleared

  /** Why the start-up path could not obtain an identity. */
  datatype StartupError = NetworkFailure | MissingAnonId

  /** What the completion effect did. */
  datatype Delivery =
    | NotDue          // already reported, or not every stand visited
    | Acknowledged    // the collector acknowledged the report
    | Queued          // the report failed and was queued for replay
    | Dropped         // the report failed for want of an identity and was not queued

  /** `reportComplete` request rebuilt from a queued entry by the replay. */
  function Resend(p: PendingReport): Request
  {
    CompletionReport(p.anonId, p.visits, p.ts)
  }

  /** The requests the replay sends for the first `n` entries of a queue snapshot, one per entry, in order. */
  function Resends(s: seq<PendingReport>, n: nat): seq<Request>
    requires n <= |s|
  {
    if n == 0 then [] else Resends(s, n - 1) + [Resend(s[n - 1])]
  }

  /** Whether the replay of entry `i` resolved (a reply is missing when the replay sent no more). */
  predicate ReplayResolved(replies: seq<ReportReply>, i: nat)
  {
    i < |replies| && Resolves(replies[i])
  }

  /** Whether the resend of one of the first `n` entries resolved. */
  predicate AnyResolved(replies: seq<ReportReply>, n: nat)
  {
    n > 0 && (AnyResolved(replies, n - 1) || ReplayResolved(replies, n - 1))
  }

  /** The identities of the first `n` queued entries whose replay resolved. */
  function ResolvedIds(s: seq<PendingReport>, replies: seq<ReportReply>, n: nat): set<string>
    requires n <= |s|
  {
    if n == 0 then {}
    else if ReplayResolved(replies, n - 1) then ResolvedIds(s, replies, n - 1) + {s[n - 1].anonId}
    else ResolvedIds(s, replies, n - 1)
  }

  /** An identity is resolved exactly when one of its first `n` entries had its resend resolve. */
  lemma {:induction false} ResolvedIdsSpec(s: seq<PendingReport>, replies: seq<ReportReply>, n: nat, x: string)
    requires n <= |s|
    ensures x in ResolvedIds(s, replies, n) <==> exists i :: 0 <= i < n && ReplayResolved(replies, i) && s[i].anonId == x
  {
    if n > 0 {
      ResolvedIdsSpec(s, replies, n - 1, x);
    }
  }

  /** One more replayed entry: its identity is cleared from what remained, if its resend resolved. */
  lemma ResolvedIdsStep(s: seq<PendingReport>, replies: seq<ReportReply>, i: nat)
    requires i < |s|
    ensures Remaining(s, ResolvedIds(s, replies, i + 1)) ==
            if ReplayResolved(replies, i)
            then Remaining(Remaining(s, ResolvedIds(s, replies, i)), {s[i].anonId})
            else Remaining(s, ResolvedIds(s, replies, i))
  {
    RemainingTwice(s, ResolvedIds(s, replies, i), {s[i].anonId});
  }

  /**
   * Whether start-up obtains an identity from `saved` and the collector's
   * `reply`: a truthy stored id, or a reply whose id is present and non-zero.
   */
  predicate StartupSucceeds(saved: Store, reply: AnonReply)
  {
    Truthy(saved.anonId) || (reply.AnonBody? && reply.id.Some? && reply.id.value != 0)
  }

  /** The identity start-up obtains: the stored one, else `String(id)` of the reply's id. */
  function StartupId(saved: Store, reply: AnonReply): (id: string)
    requires StartupSucceeds(saved, reply)
    ensures id != ""
  {
    if Truthy(saved.anonId) then saved.anonId.value else IntString(reply.id.value)
  }

  class App {
    /** The durable store. */
    var store: Store
    /** Component state: the identity once start-up has obtained it. */
    var anonId: Option<string>
    /** Component state: the visit ledger. */
    var visits: seq<Visit>
    /** Component state: whether completion has been acknowledged. */
    var reported: bool
    /** Component state: the status line. */
    var status: Status
    /** Every request sent to the collector, oldest first. */
    var requests: seq<Request>

    ghost predicate Valid()
      reads this
    {
      && WellFormedStore(store)
      && LedgerOk(visits)
      && reported == store.reported
      && (anonId.Some? ==> anonId == store.anonId)
    }

    /** A page load: component state is initialised from the store. */
    constructor Load(saved: Store)
      requires WellFormedStore(saved)
      ensures Valid()
      ensures store == saved && anonId == None && visits == saved.visits
      ensures reported == saved.reported && status == Idle && requests == []
    {
      store := saved;
      anonId := None;
      visits := saved.visits;
      reported := saved.reported;
      status := Idle;
      requests := [];
    }

    /**
     * `ensureAnonId`: a stored identity is returned without a request; otherwise
     * one `newAnon` request is sent and a non-zero id is stored as `String(id)`.
     */
    method EnsureAnonId(reply: AnonReply) returns (r: Result<string, StartupError>)
      requires Valid()
      modifies this`store, this`requests
      ensures Valid()
      ensures r.Success? ==> r.value != "" && store.anonId == Some(r.value)
      ensures Truthy(old(store.anonId)) ==>
                r == Success(old(store.anonId).value) && store == old(store) && requests == old(requests)
      ensures !Truthy(old(store.anonId)) ==> requests == old(requests) + [NewAnon]
      ensures !Truthy(old(store.anonId)) ==>
                match reply
                case AnonUnreachable => r == Failure(NetworkFailure) && store == old(store)
                case AnonBody(id) =>
                  if id.Some? && id.value != 0
                  then r == Success(IntString(id.value)) && store == old(store).(anonId := Some(IntString(id.value)))
                  else r == Failure(MissingAnonId) && store == old(store)
    {
      var cached := store.anonId;
      if Truthy(cached) {
        return Success(cached.value);
      }
      requests := requests + [NewAnon];
      match reply
      case AnonUnreachable =>
        r := Failure(NetworkFailure);
      case AnonBody(id) =>
        if id.None? || id.value == 0 {
          return Failure(MissingAnonId);
        }
        var s := IntString(id.value);
        store := store.(anonId := Some(s));
        r := Success(s);
    }

    /**
     * `handleStandVisit`: a stand already in the ledger only changes the status;
     * a new one is appended with the given timestamp.
     */
    method HandleStandVisit(stand: real, ts: Timestamp)
      requires Valid() && IsStand(stand)
      modifies this`visits, this`status
      ensures Valid()
      ensures visits == Record(old(visits), stand, ts)
      ensures Visited(old(visits), stand) ==> visits == old(visits) && status == AlreadyRegistered(stand)
      ensures !Visited(old(visits), stand) ==>
                visits == old(visits) + [Visit(stand, ts)] && status == RegisteredLocally(stand)
      ensures UniqueCount(visits) == |visits| <= STAND_COUNT
    {
      RecordKeepsLedger(visits, stand, ts);
      UniqueCountBounded(Record(visits, stand, ts));
      RecordSpec(visits, stand, ts);
      if Visited(visits, stand) {
        status := AlreadyRegistered(stand);
        return;
      }
      visits := visits + [Visit(stand, ts)];
      status := RegisteredLocally(stand);
    }

    /**
     * The start-up effect: obtain the identity, then record the stand named in
     * the page address, if any. `standParam` is `None` when the parameter is
     * absent or empty.
     */
    method Mount(standParam: Option<JsNumber>, reply: AnonReply, ts: Timestamp)
      returns (r: Result<string, StartupError>)
      requires Valid()
      modifies this`store, this`requests, this`anonId, this`visits, this`status
      ensures Valid()
      ensures store == old(store).(anonId := store.anonId)
      ensures Truthy(old(store.anonId)) ==> r == Success(old(store.anonId).value) && requests == old(requests)
      ensures !Truthy(old(store.anonId)) ==> requests == old(requests) + [NewAnon]
      ensures r.Success? <==> StartupSucceeds(old(store), reply)
      ensures r.Success? ==> r.value == StartupId(old(store), reply)
      ensures r.Failure? ==>
                status == NetworkError && store == old(store) && visits == old(visits) && anonId == old(anonId)
      ensures r.Success? ==> anonId == Some(r.value) && store.anonId == anonId
      ensures r.Success? && standParam.None? ==> visits == old(visits) && status == old(status)
      ensures r.Success? && standParam.Some? && !IsStandNumber(standParam.value) ==>
                visits == old(visits) && status == InvalidQr
      ensures r.Success? && standParam.Some? && IsStandNumber(standParam.value) ==>
                && visits == Record(old(visits), standParam.value.value, ts)
                && status == if Visited(old(visits), standParam.value.value)
                             then AlreadyRegistered(standParam.value.value)
                             else RegisteredLocally(standParam.value.value)
    {
      r := EnsureAnonId(reply);
      if r.Failure? {
        status := NetworkError;
        return;
      }
      anonId := Some(r.value);
      if standParam.Some? {
        if IsStandNumber(standParam.value) {
          HandleStandVisit(standParam.value.value, ts);
        } else {
          status := InvalidQr;
        }
      }
    }

    /** `clearPendingReport`: drop every queued entry of identity `id`. */
    method ClearPendingReport(id: string)
      requires Valid()
      modifies this`store
      ensures Valid()
      ensures store == old(store).(pendingReports := Remaining(old(store.pendingReports), {id}))
    {
      var pending := store.pendingReports;
      forall i | 0 <= i < |Remaining(pending, {id})|
        ensures Remaining(pending, {id})[i].anonId != ""
      {
        RemainingMembership(pending, {id}, Remaining(pending, {id})[i]);
      }
      store := store.(pendingReports := Remaining(pending, {id}));
    }

    /** `queuePendingReport`: append one entry, unless there is no identity. */
    method QueuePendingReport(id: Option<string>, toReport: seq<Visit>, ts: Timestamp)
      requires Valid()
      modifies this`store
      ensures Valid()
      ensures Truthy(id) ==>
                store == old(store).(pendingReports := old(store.pendingReports) + [PendingReport(id.value, toReport, ts)])
      ensures !Truthy(id) ==> store == old(store)
    {
      if !Truthy(id) {
        return;
      }
      store := store.(pendingReports := store.pendingReports + [PendingReport(id.value, toReport, ts)]);
    }

    /**
     * `reportComplete`: without an identity it fails before sending anything;
     * otherwise it sends one report, and on an acknowledgement records
     * `reported` and clears the identity's queued entries.
     */
    method ReportComplete(id: Option<string>, toReport: seq<Visit>, reply: ReportReply, ts: Timestamp)
      returns (ok: bool)
      requires Valid()
      modifies this`store, this`reported, this`status, this`requests
      ensures Valid()
      ensures ok <==> Truthy(id) && Acknowledges(reply)
      ensures !Truthy(id) ==>
                store == old(store) && reported == old(reported) && status == old(status) && requests == old(requests)
      ensures Truthy(id) ==> requests == old(requests) + [CompletionReport(id.value, toReport, ts)]
      ensures ok ==>
                && reported && status == ReportedOk
                && store == old(store).(reported := true,
                                        pendingReports := Remaining(old(store.pendingReports), {id.value}))
      ensures Truthy(id) && !ok ==> store == old(store) && reported == old(reported) && status == Reporting
    {
      if !Truthy(id) {
        return false;
      }
      status := Reporting;
      requests := requests + [CompletionReport(id.value, toReport, ts)];
      if Acknowledges(reply) {
        store := store.(reported := true);
        reported := true;
        status := ReportedOk;
        ClearPendingReport(id.value);
        ok := true;
      } else {
        ok := false;
      }
    }

    /**
     * The effect that runs whenever the ledger changes: persist it, and when
     * every stand is visited and completion is not yet reported, report it,
     * queueing the report if that fails.
     */
    method VisitsEffect(reply: ReportReply, sendTs: Timestamp, queueTs: Timestamp) returns (d: Delivery)
      requires Valid()
      modifies this`store, this`reported, this`status, this`requests
      ensures Valid()
      ensures store.visits == visits
      ensures d == NotDue <==> old(reported) || UniqueCount(visits) != STAND_COUNT
      ensures reported == (old(reported) || d == Acknowledged)
      ensures d == NotDue ==>
                store == old(store).(visits := visits) && status == old(status) && requests == old(requests)
      ensures d == Dropped <==> d != NotDue && !Truthy(anonId)
      ensures d == Dropped ==>
                store == old(store).(visits := visits) && status == old(status) && requests == old(requests)
      ensures d == Acknowledged || d == Queued ==>
                requests == old(requests) + [CompletionReport(anonId.value, visits, sendTs)]
      ensures d == Acknowledged <==> d != NotDue && Truthy(anonId) && Acknowledges(reply)
      ensures d == Acknowledged ==> status == ReportedOk
      ensures d == Queued ==> status == Reporting
      ensures d == Acknowledged ==>
                store == old(store).(visits := visits, reported := true,
                                     pendingReports := Remaining(old(store.pendingReports), {anonId.value}))
      ensures d == Queued ==>
                store == old(store).(visits := visits,
                                     pendingReports := old(store.pendingReports) + [PendingReport(anonId.value, visits, queueTs)])
    {
      store := store.(visits := visits);
      if !reported && UniqueCount(visits) == STAND_COUNT {
        var ok := ReportComplete(anonId, visits, reply, sendTs);
        if ok {
          d := Acknowledged;
        } else {
          QueuePendingReport(anonId, visits, queueTs);
          d := if Truthy(anonId) then Queued else Dropped;
        }
      } else {
        d := NotDue;
      }
    }

    /** One step of the replay: resend `p`; when the resend resolved, clear its identity. */
    method ResendPending(p: PendingReport, resolved: bool)
      requires Valid()
      modifies this`store, this`status, this`requests
      ensures Valid()
      ensures requests == old(requests) + [Resend(p)]
      ensures resolved ==>
                store == old(store).(pendingReports := Remaining(old(store.pendingReports), {p.anonId}))
                && status == SyncedPending
      ensures !resolved ==> store == old(store) && status == old(status)
    {
      requests := requests + [Resend(p)];
      if resolved {
        ClearPendingReport(p.anonId);
        status := SyncedPending;
      }
    }

    /**
     * `flushPending`: resend every entry of the queue as it stood when the
     * replay began; each resolved resend clears every entry of that identity.
     * `replies[i]` is the reply to the i-th resend.
     */
    method FlushPending(replies: seq<ReportReply>)
      requires Valid()
      modifies this`store, this`status, this`requests
      ensures Valid()
      ensures store == old(store).(pendingReports :=
                Remaining(old(store.pendingReports), ResolvedIds(old(store.pendingReports), replies, |old(store.pendingReports)|)))
      ensures requests == old(requests) + Resends(old(store.pendingReports), |old(store.pendingReports)|)
      ensures status == if AnyResolved(replies, |old(store.pendingReports)|) then SyncedPending else old(status)
      ensures forall p :: p in store.pendingReports ==>
                p in old(store.pendingReports)
                && p.anonId !in ResolvedIds(old(store.pendingReports), replies, |old(store.pendingReports)|)
      ensures forall p ::
                (p in old(store.pendingReports)
                 && p.anonId !in ResolvedIds(old(store.pendingReports), replies, |old(store.pendingReports)|)) ==>
                p in store.pendingReports
    {
      var snapshot := store.pendingReports;
      RemainingUntouched(snapshot, {});
      var i := 0;
      while i < |snapshot|
        invariant 0 <= i <= |snapshot|
        invariant Valid()
        invariant store == old(store).(pendingReports := Remaining(snapshot, ResolvedIds(snapshot, replies, i)))
        invariant requests == old(requests) + Resends(snapshot, i)
        invariant status == if AnyResolved(replies, i) then SyncedPending else old(status)
      {
        ResolvedIdsStep(snapshot, replies, i);
        ResendPending(snapshot[i], ReplayResolved(replies, i));
        assert old(requests) + Resends(snapshot, i + 1) == old(requests) + Resends(snapshot, i) + [Resend(snapshot[i])];
        i := i + 1;
      }
      RemainingExactly(snapshot, ResolvedIds(snapshot, replies, |snapshot|));
    }

    /** `resetAll`: clear the store and return the component state to its start. */
    method ResetAll()
      requires Valid()
      modifies this`store, this`anonId, this`visits, this`reported, this`status
      ensures Valid()
      ensures store == EmptyStore && anonId == None && visits == [] && !reported && status == CacheCleared
    {
      store := EmptyStore;
      anonId := None;
      visits := [];
      reported := false;
      status := CacheCleared;
    }
  }

  /** Whether a completion report is among the requests. */
  predicate SentCompletion(requests: seq<Request>)
  {
    exists i :: 0 <= i < |requests| && requests[i].CompletionReport?
  }

  /**
   * A page load: the component state is read from the store, the visits
   * effect runs once before start-up has set the identity, then start-up
   * runs, and the visits effect runs again if start-up changed the ledger.
   * A load sends a completion report only when its own scan was a new stand
   * that completed a ledger not yet reported.
   */
  method PageLoad(saved: Store, standParam: Option<JsNumber>, anonReply: AnonReply,
                  reportReply: ReportReply, visitTs: Timestamp, sendTs: Timestamp, queueTs: Timestamp)
    returns (app: App)
    requires WellFormedStore(saved)
    ensures fresh(app) && app.Valid()
    ensures |app.requests| <= 2
    ensures SentCompletion(app.requests) ==>
              && !saved.reported
              && standParam.Some? && IsStandNumber(standParam.value)
              && !Visited(saved.visits, standParam.value.value)
              && app.visits == saved.visits + [Visit(standParam.value.value, visitTs)]
              && UniqueCount(app.visits) == STAND_COUNT
    ensures app.anonId == if StartupSucceeds(saved, anonReply) then Some(StartupId(saved, anonReply)) else None
    ensures app.visits ==
              if StartupSucceeds(saved, anonReply) && standParam.Some? && IsStandNumber(standParam.value)
              then Record(saved.visits, standParam.value.value, visitTs)
              else saved.visits
    ensures var due := app.visits != saved.visits && !saved.reported && UniqueCount(app.visits) == STAND_COUNT;
            && app.requests ==
                 (if Truthy(saved.anonId) then [] else [NewAnon])
                 + (if due then [CompletionReport(StartupId(saved, anonReply), app.visits, sendTs)] else [])
            && app.reported == (saved.reported || (due && Acknowledges(reportReply)))
            && app.store ==
                 saved.(anonId := app.anonId, visits := app.visits, reported := app.reported,
                        pendingReports :=
                          if !due then saved.pendingReports
                          else if Acknowledges(reportReply)
                          then Remaining(saved.pendingReports, {StartupId(saved, anonReply)})
                          else saved.pendingReports + [PendingReport(StartupId(saved, anonReply), app.visits, queueTs)])
    ensures var due := app.visits != saved.visits && !saved.reported && UniqueCount(app.visits) == STAND_COUNT;
            app.status ==
              if !StartupSucceeds(saved, anonReply) then NetworkError
              else if standParam.None? then Idle
              else if !IsStandNumber(standParam.value) then InvalidQr
              else if due then (if Acknowledges(reportReply) then ReportedOk else Reporting)
              else if Visited(saved.visits, standParam.value.value) then AlreadyRegistered(standParam.value.value)
              else RegisteredLocally(standParam.value.value)
  {
    app := new App.Load(saved);
    var first := app.VisitsEffect(reportReply, sendTs, queueTs);
    assert app.requests == [];
    var r := app.Mount(standParam, anonReply, visitTs);
    assert !SentCompletion(app.requests);
    if app.visits != saved.visits {
      var second := app.VisitsEffect(reportReply, sendTs, queueTs);
    }
  }
}

=== FILE: collector.dfy ===
/**
 * The remote collector as the application sees it: the requests it sends
 * and the replies it gets back. Replies are inputs to the model.
 */
module Collector {
  import opened Wrappers
  import opened Ledger

  /** A request the application sends to the collector. */
  datatype Request =
    | NewAnon
    | CompletionReport(anonId: string, visits: seq<Visit>, timestamp: Timestamp)

  /**
   * The reply to `?action=newAnon`. `AnonUnreachable` is a request that
   * failed or came back with a non-2xx status; otherwise `id` is the body's
   * `id` field, `None` when the body or the field is missing.
   */
  datatype AnonReply = AnonUnreachable | AnonBody(id: Option<int>)

  /**
   * The reply to a `reportComplete` post. `ReportUnreachable` is a request
   * that failed or came back with a non-2xx status; otherwise `success` is the
   * truthiness of the body's `success` field.
   */
  datatype ReportReply = ReportUnreachable | ReportBody(success: bool)

  /** How the completion report judges a reply: a body whose `success` is truthy. */
  predicate Acknowledges(reply: ReportReply)
  {
    reply.ReportBody? && reply.success
  }

  /** How the replay of a pending report judges a reply: any 2xx JSON body. */
  predicate Resolves(reply: ReportReply)
  {
    reply.ReportBody?
  }

  /** The collector's acknowledgement is one kind of resolved reply, not the only one. */
  lemma AcknowledgedIsResolved(reply: ReportReply)
    ensures Acknowledges(reply) ==> Resolves(reply)
    ensures Resolves(ReportBody(false)) && !Acknowledges(ReportBody(false))
  {
  }
}

=== FILE: identity.dfy ===
/**
 * The anonymous identity: the id the collector hands out is kept as the
 * decimal string `String(id)`, and a stored id counts only when it is truthy.
 */
module AnonIdentity {
  import opened Wrappers

  /** JavaScript truthiness of a `string | null`: present and not empty. */
  predicate Truthy(id: Option<string>)
  {
    id.Some? && id.value != ""
  }

  function DigitChar(d: nat): (c: char)
    requires d < 10
    ensures '0' <= c <= '9' && c as int - '0' as int == d
  {
    ('0' as int + d) as char
  }

  predicate AllDigits(s: string)
  {
    forall i :: 0 <= i < |s| ==> '0' <= s[i] <= '9'
  }

  /** The decimal digits of a natural number, most significant first. */
  function DigitString(n: nat): (s: string)
    ensures |s| > 0 && AllDigits(s)
    ensures n > 0 ==> s[0] != '0'
    decreases n
  {
    if n < 10 then [DigitChar(n)] else DigitString(n / 10) + [DigitChar(n % 10)]
  }

  /** `String(id)` for an integer id: an optional minus sign, then the digits. */
  function IntString(k: int): (s: string)
    ensures s != ""
  {
    if k < 0 then "-" + DigitString(-k) else DigitString(k)
  }

  /** The value of a string of decimal digits. */
  function DigitsValue(s: string): int
  {
    if s == [] then 0 else DigitsValue(s[..|s| - 1]) * 10 + (s[|s| - 1] as int - '0' as int)
  }

  /** Reads back an optional minus sign followed by decimal digits. */
  function ParseInt(s: string): int
  {
    if |s| > 0 && s[0] == '-' then -DigitsValue(s[1..]) else DigitsValue(s)
  }

  lemma {:induction false} DigitStringRoundTrip(n: nat)
    ensures DigitsValue(DigitString(n)) == n
    decreases n
  {
    if n >= 10 {
      var s := DigitString(n);
      assert s[..|s| - 1] == DigitString(n / 10);
      DigitStringRoundTrip(n / 10);
    }
  }

  /** `String(id)` loses nothing: the id can be read back from it. */
  lemma IntStringRoundTrip(k: int)
    ensures ParseInt(IntString(k)) == k
  {
    if k < 0 {
      DigitStringRoundTrip(-k);
      assert IntString(k)[1..] == DigitString(-k);
    } else {
      DigitStringRoundTrip(k);
    }
  }

  /** Distinct ids give distinct stored strings. */
  lemma IntStringInjective(a: int, b: int)
    requires IntString(a) == IntString(b)
    ensures a == b
  {
    IntStringRoundTrip(a);
    IntStringRoundTrip(b);
  }
}

=== FILE: ledger.dfy ===
/**
 * The visit ledger: the ordered list of stand visits, its deduplication,
 * the count of distinct stands that drives completion, and the check that a
 * scanned stand number names one of the STAND_COUNT stands.
 */
module Ledger {

  /** Number of stands a visitor must visit. */
  const STAND_COUNT: nat := 4

  /** An ISO-8601 timestamp; the model never looks inside it. */
  type Timestamp = string

  /** One recorded arrival at a stand. Stand numbers are JavaScript numbers. */
  datatype Visit = Visit(stand: real, ts: Timestamp)

  /** The result of `Number(...)` on the stand parameter of the page address. */
  datatype JsNumber = NaN | PosInfinity | NegInfinity | Finite(value: real)

  /**
   * The range check as the application writes it: not NaN, at least 1 and
   * at most STAND_COUNT. It does not ask for a whole number.
   */
  predicate PassesRangeCheckAsWritten(n: JsNumber): (ok: bool)
    ensures ok ==> n.Finite?  // NaN and both infinities are rejected
  {
    match n
    case NaN => false
    case PosInfinity => false  // Infinity <= STAND_COUNT fails
    case NegInfinity => false  // -Infinity >= 1 fails
    case Finite(x) => 1.0 <= x <= STAND_COUNT as real
  }

  /** A stand number: a whole number from 1 to STAND_COUNT. */
  predicate IsStand(x: real)
  {
    1.0 <= x <= STAND_COUNT as real && x.Floor as real == x
  }

  /** The corrected range check: the as-written check plus "is a whole number". */
  predicate IsStandNumber(n: JsNumber): (ok: bool)
    ensures ok <==> PassesRangeCheckAsWritten(n) && n.value.Floor as real == n.value
  {
    n.Finite? && IsStand(n.value)
  }

  /** `visits.some((v) => v.stand === stand)` */
  predicate Visited(v: seq<Visit>, stand: real)
  {
    exists i :: 0 <= i < |v| && v[i].stand == stand
  }

  /** No stand occurs twice in the ledger. */
  predicate NoRepeatedStand(v: seq<Visit>)
  {
    forall i, j :: 0 <= i < j < |v| ==> v[i].stand != v[j].stand
  }

  /** Every recorded stand is a valid stand number. */
  predicate AllStands(v: seq<Visit>)
  {
    forall i :: 0 <= i < |v| ==> IsStand(v[i].stand)
  }

  /** The invariant the application keeps on its ledger. */
  predicate LedgerOk(v: seq<Visit>)
  {
    NoRepeatedStand(v) && AllStands(v)
  }

  /** `new Set(visits.map((v) => v.stand))` */
  function StandSet(v: seq<Visit>): set<real>
  {
    if v == [] then {} else StandSet(v[..|v| - 1]) + {v[|v| - 1].stand}
  }

  /**
   * `visitsUniqueCount`: the number of distinct stands in the ledger. It never
   * exceeds the ledger's length, and equals it exactly when no stand repeats.
   */
  function UniqueCount(v: seq<Visit>): (n: nat)
    ensures n <= |v|
    ensures n == |v| <==> NoRepeatedStand(v)
  {
    StandSetSize(v);
    |StandSet(v)|
  }

  lemma {:induction false} InStandSet(v: seq<Visit>, x: real)
    ensures x in StandSet(v) <==> Visited(v, x)
  {
    if v != [] {
      var p := v[..|v| - 1];
      InStandSet(p, x);
      if Visited(p, x) {
        var i :| 0 <= i < |p| && p[i].stand == x;
        assert v[i].stand == x;
      }
      if Visited(v, x) && x != v[|v| - 1].stand {
        var i :| 0 <= i < |v| && v[i].stand == x;
        assert p[i].stand == x;
      }
    }
  }

  lemma {:induction false} StandSetSize(v: seq<Visit>)
    ensures |StandSet(v)| <= |v|
    ensures |StandSet(v)| == |v| <==> NoRepeatedStand(v)
  {
    if v != [] {
      var p, x := v[..|v| - 1], v[|v| - 1];
      StandSetSize(p);
      InStandSet(p, x.stand);
      if Visited(p, x.stand) {
        var i :| 0 <= i < |p| && p[i].stand == x.stand;
        assert v[i].stand == v[|v| - 1].stand;
      } else {
        if !NoRepeatedStand(p) {
          var i, j :| 0 <= i < j < |p| && p[i].stand == p[j].stand;
          assert v[i].stand == v[j].stand;
        }
      }
    }
  }

  /** The ledger has the same distinct count whatever the order or repetition of its entries. */
  lemma UniqueCountOrderFree(v: seq<Visit>, w: seq<Visit>)
    requires forall x :: Visited(v, x) <==> Visited(w, x)
    ensures UniqueCount(v) == UniqueCount(w)
  {
    forall x ensures x in StandSet(v) <==> x in StandSet(w) {
      InStandSet(v, x);
      InStandSet(w, x);
    }
    assert StandSet(v) == StandSet(w);
  }

  /**
   * What `handleStandVisit` does to the ledger: a stand already present leaves
   * it unchanged, a new one is appended with the given timestamp.
   */
  function Record(v: seq<Visit>, stand: real, ts: Timestamp): (r: seq<Visit>)
    ensures v <= r && |r| <= |v| + 1
    ensures Visited(r, stand)
  {
    if Visited(v, stand) then v
    else
      var r := v + [Visit(stand, ts)];
      assert r[|v|].stand == stand;
      r
  }

  /** The ledger after a series of scans, one `Record` per scan, in order. */
  function RecordAll(v: seq<Visit>, scans: seq<Visit>): seq<Visit>
    decreases |scans|
  {
    if scans == [] then v else RecordAll(Record(v, scans[0].stand, scans[0].ts), scans[1..])
  }

  /**
   * Recording keeps earlier entries in place (the old ledger is a prefix),
   * adds the stand to the set of stands, never repeats a stand, and adds
   * one entry exactly when the stand is new.
   */
  lemma RecordSpec(v: seq<Visit>, stand: real, ts: Timestamp)
    requires NoRepeatedStand(v)
    ensures v <= Record(v, stand, ts)
    ensures NoRepeatedStand(Record(v, stand, ts))
    ensures Visited(Record(v, stand, ts), stand)
    ensures StandSet(Record(v, stand, ts)) == StandSet(v) + {stand}
    ensures |Record(v, stand, ts)| == |v| + (if Visited(v, stand) then 0 else 1)
    ensures UniqueCount(Record(v, stand, ts)) == |Record(v, stand, ts)|
  {
    var r := Record(v, stand, ts);
    InStandSet(v, stand);
    if !Visited(v, stand) {
      assert r[..|r| - 1] == v;
      assert r[|r| - 1].stand == stand;
    }
  }

  /** Scanning a stand a second time, at any later time, changes nothing. */
  lemma RecordIdempotent(v: seq<Visit>, stand: real, t1: Timestamp, t2: Timestamp)
    ensures Record(Record(v, stand, t1), stand, t2) == Record(v, stand, t1)
  {
    if !Visited(v, stand) {
      var r := Record(v, stand, t1);
      assert r[|r| - 1].stand == stand;
    }
  }

  /** A recorded stand stays valid as long as only valid stands are recorded. */
  lemma RecordKeepsLedger(v: seq<Visit>, stand: real, ts: Timestamp)
    requires LedgerOk(v) && IsStand(stand)
    ensures LedgerOk(Record(v, stand, ts))
  {
    RecordSpec(v, stand, ts);
  }

  /**
   * After any series of scans starting from a duplicate-free ledger, the
   * ledger holds exactly the stands seen before or scanned, each once.
   */
  lemma {:induction false} RecordAllSpec(v: seq<Visit>, scans: seq<Visit>)
    requires NoRepeatedStand(v)
    ensures NoRepeatedStand(RecordAll(v, scans))
    ensures StandSet(RecordAll(v, scans)) == StandSet(v) + StandSet(scans)
    decreases |scans|
  {
    if scans != [] {
      var v' := Record(v, scans[0].stand, scans[0].ts);
      RecordSpec(v, scans[0].stand, scans[0].ts);
      RecordAllSpec(v', scans[1..]);
      StandSetFront(scans);
    }
  }

  lemma {:induction false} StandSetFront(s: seq<Visit>)
    requires s != []
    ensures StandSet(s) == {s[0].stand} + StandSet(s[1..])
  {
    forall x ensures x in StandSet(s) <==> x in {s[0].stand} + StandSet(s[1..]) {
      InStandSet(s, x);
      InStandSet(s[1..], x);
      if Visited(s, x) && x != s[0].stand {
        var i :| 0 <= i < |s| && s[i].stand == x;
        assert s[1..][i - 1].stand == x;
      }
      if Visited(s[1..], x) {
        var i :| 0 <= i < |s[1..]| && s[1..][i].stand == x;
        assert s[i + 1].stand == x;
      }
    }
  }

  /**
   * Scanning stands one after the other into an empty ledger leaves one
   * entry per distinct stand scanned: the unique count and the ledger's
   * length are both the number of distinct stands in the scans.
   */
  lemma ScansCountDistinctStands(scans: seq<Visit>)
    ensures UniqueCount(RecordAll([], scans)) == |StandSet(scans)|
    ensures |RecordAll([], scans)| == |StandSet(scans)|
  {
    RecordAllSpec([], scans);
  }

  /** The whole numbers 1..STAND_COUNT, as the set of valid stand numbers. */
  function AllStandNumbers(): (s: set<real>)
    ensures forall x :: x in s <==> IsStand(x)
    ensures |s| == STAND_COUNT
  {
    forall x | IsStand(x) ensures x in {1.0, 2.0, 3.0, 4.0} {
      var k := x.Floor;
      assert 1 <= k <= 4;
    }
    {1.0, 2.0, 3.0, 4.0}
  }

  lemma {:induction false} StandSetOfStands(v: seq<Visit>)
    requires AllStands(v)
    ensures StandSet(v) <= AllStandNumbers()
  {
    forall x | x in StandSet(v) ensures x in AllStandNumbers() {
      InStandSet(v, x);
    }
  }

  lemma SubsetCard(a: set<real>, b: set<real>)
    requires a <= b
    ensures |a| <= |b|
    ensures |a| == |b| ==> a == b
  {
    assert b == a + (b - a);
    assert |b| == |a| + |b - a|;
    if |a| == |b| {
      assert |b - a| == 0;
      assert b - a == {};
    }
  }

  /** A ledger of valid stands never counts more than STAND_COUNT distinct stands. */
  lemma UniqueCountBounded(v: seq<Visit>)
    requires AllStands(v)
    ensures UniqueCount(v) <= STAND_COUNT
  {
    StandSetOfStands(v);
    SubsetCard(StandSet(v), AllStandNumbers());
  }

  /**
   * For a ledger of valid stands, reaching STAND_COUNT distinct stands means
   * exactly that every stand 1..STAND_COUNT has been visited.
   */
  lemma CompleteIffAllVisited(v: seq<Visit>)
    requires AllStands(v)
    ensures UniqueCount(v) == STAND_COUNT <==> forall x :: IsStand(x) ==> Visited(v, x)
  {
    var all := AllStandNumbers();
    StandSetOfStands(v);
    SubsetCard(StandSet(v), all);
    if UniqueCount(v) == STAND_COUNT {
      forall x | IsStand(x) ensures Visited(v, x) {
        InStandSet(v, x);
      }
    }
    if forall x :: IsStand(x) ==> Visited(v, x) {
      forall x | x in all ensures x in StandSet(v) {
        InStandSet(v, x);
      }
      assert StandSet(v) == all;
    }
  }

  /** Four scans, two of them fractional, at one timestamp. */
  function FractionalScans(ts: Timestamp): seq<Visit>
  {
    [Visit(1.0, ts), Visit(1.5, ts), Visit(2.0, ts), Visit(2.5, ts)]
  }

  /** Each of the four scans names a stand not seen before, so each is appended. */
  lemma FractionalScansAllRecorded(ts: Timestamp)
    ensures RecordAll([], FractionalScans(ts)) == FractionalScans(ts)
  {
    var scans := FractionalScans(ts);
    assert !Visited(scans[..1], 1.5);
    assert !Visited(scans[..2], 2.0);
    assert !Visited(scans[..3], 2.5);
    assert Record([], 1.0, ts) == scans[..1];
    assert Record(scans[..1], 1.5, ts) == scans[..2];
    assert Record(scans[..2], 2.0, ts) == scans[..3];
    assert Record(scans[..3], 2.5, ts) == scans;
    assert RecordAll([], scans) == RecordAll(scans[..1], scans[1..]);
    assert RecordAll(scans[..1], scans[1..]) == RecordAll(scans[..2], scans[2..]);
    assert RecordAll(scans[..2], scans[2..]) == RecordAll(scans[..3], scans[3..]);
    assert RecordAll(scans[..3], scans[3..]) == RecordAll(scans, []);
  }

  /**
   * The as-written range check lets fractional stands through: scanning
   * 1, 1.5, 2 and 2.5 passes it every time and brings the unique count to
   * STAND_COUNT although stands 3 and 4 were never visited.
   */
  lemma FractionalStandsCompleteEarly(ts: Timestamp)
    ensures var scans := FractionalScans(ts);
            && (forall i :: 0 <= i < |scans| ==> PassesRangeCheckAsWritten(Finite(scans[i].stand)))
            && UniqueCount(RecordAll([], scans)) == STAND_COUNT
            && !Visited(RecordAll([], scans), 3.0)
            && !Visited(RecordAll([], scans), 4.0)
            && !IsStandNumber(Finite(1.5))
  {
    var scans := FractionalScans(ts);
    FractionalScansAllRecorded(ts);
    assert scans[0].stand == 1.0 && scans[1].stand == 1.5 && scans[2].stand == 2.0 && scans[3].stand == 2.5;
    assert NoRepeatedStand(scans);
    assert UniqueCount(scans) == 4;
  }
}

=== FILE: pending.dfy ===
/**
 * The queue of completion reports that could not be delivered, kept under
 * the `pendingReports` key, and its filtering by identity.
 */
module PendingQueue {
  import opened Ledger

  /** A completion report waiting to be delivered. */
  datatype PendingReport = PendingReport(anonId: string, visits: seq<Visit>, ts: Timestamp)

  /** The queue without the entries whose identity is in `ids`, in the original order. */
  function Remaining(s: seq<PendingReport>, ids: set<string>): (r: seq<PendingReport>)
    ensures |r| <= |s|
  {
    if s == [] then []
    else if s[0].anonId in ids then Remaining(s[1..], ids)
    else [s[0]] + Remaining(s[1..], ids)
  }

  /** An entry survives exactly when it was queued and its identity is not removed. */
  lemma {:induction false} RemainingMembership(s: seq<PendingReport>, ids: set<string>, p: PendingReport)
    ensures p in Remaining(s, ids) <==> p in s && p.anonId !in ids
  {
    if s != [] {
      RemainingMembership(s[1..], ids, p);
      assert p in s <==> p == s[0] || p in s[1..];
    }
  }

  /** The surviving entries are exactly the queued ones whose identity is not removed. */
  lemma RemainingExactly(s: seq<PendingReport>, ids: set<string>)
    ensures forall p :: p in Remaining(s, ids) <==> p in s && p.anonId !in ids
  {
    forall p ensures p in Remaining(s, ids) <==> p in s && p.anonId !in ids {
      RemainingMembership(s, ids, p);
    }
  }

  /** Entries whose identity is not removed are kept as they are. */
  lemma {:induction false} RemainingUntouched(s: seq<PendingReport>, ids: set<string>)
    requires forall i :: 0 <= i < |s| ==> s[i].anonId !in ids
    ensures Remaining(s, ids) == s
  {
    if s != [] {
      RemainingUntouched(s[1..], ids);
    }
  }

  /** Filtering works piecewise, so the surviving entries keep their relative order. */
  lemma {:induction false} RemainingConcat(s: seq<PendingReport>, t: seq<PendingReport>, ids: set<string>)
    ensures Remaining(s + t, ids) == Remaining(s, ids) + Remaining(t, ids)
  {
    if s != [] {
      assert (s + t)[1..] == s[1..] + t;
      RemainingConcat(s[1..], t, ids);
    } else {
      assert s + t == t;
    }
  }

  /** Removing one set of identities and then another is removing both at once. */
  lemma {:induction false} RemainingTwice(s: seq<PendingReport>, a: set<string>, b: set<string>)
    ensures Remaining(Remaining(s, a), b) == Remaining(s, a + b)
  {
    if s != [] {
      RemainingTwice(s[1..], a, b);
    }
  }

  /** Removing the same identities again changes nothing. */
  lemma RemainingIdempotent(s: seq<PendingReport>, ids: set<string>)
    ensures Remaining(Remaining(s, ids), ids) == Remaining(s, ids)
  {
    RemainingTwice(s, ids, ids);
    assert ids + ids == ids;
  }
}

=== FILE: scenarios.dfy ===
/**
 * Properties that span several handler calls, stated as client methods of
 * `App` and proved from the handlers' contracts alone.
 */
module Scenarios {
  import opened Wrappers
  import opened Ledger
  import opened AnonIdentity
  import opened Collector
  import opened PendingQueue
  import opened StandApp

  /**
   * Once a request for the identity succeeds, asking again returns the same
   * value, and the two together send at most one `newAnon` request, whatever
   * the collector would reply the second time.
   */
  method IdentityIsStable(app: App, first: AnonReply, second: AnonReply)
    returns (r1: Result<string, StartupError>, r2: Result<string, StartupError>)
    requires app.Valid()
    modifies app
    ensures app.Valid()
    ensures r1.Success? ==> r2 == r1
    ensures r1.Success? ==> app.requests == old(app.requests) || app.requests == old(app.requests) + [NewAnon]
  {
    r1 := app.EnsureAnonId(first);
    r2 := app.EnsureAnonId(second);
  }

  /**
   * After a reset nothing is left: no identity (the next request for one
   * goes to the collector), no visits, no queued report, nothing reported.
   */
  method ResetStartsOver(app: App, reply: AnonReply) returns (r: Result<string, StartupError>)
    requires app.Valid()
    modifies app
    ensures app.Valid()
    ensures app.requests == old(app.requests) + [NewAnon]
    ensures UniqueCount(app.visits) == 0 && app.store.visits == []
    ensures app.store.pendingReports == [] && !app.reported && !app.store.reported
  {
    app.ResetAll();
    r := app.EnsureAnonId(reply);
  }

  /**
   * A completion report that fails is queued; a replay whose resend
   * resolves then empties the queue. The replay does not set `reported`.
   */
  method QueueThenRecover(app: App, sendTs: Timestamp, queueTs: Timestamp)
    requires app.Valid()
    requires !app.reported && UniqueCount(app.visits) == STAND_COUNT
    requires Truthy(app.anonId) && app.store.pendingReports == []
    modifies app
    ensures app.Valid()
    ensures app.store.pendingReports == [] && app.status == SyncedPending
    ensures !app.reported
    ensures app.requests == old(app.requests) + [
              CompletionReport(old(app.anonId).value, old(app.visits), sendTs),
              CompletionReport(old(app.anonId).value, old(app.visits), queueTs)]
  {
    var d := app.VisitsEffect(ReportUnreachable, sendTs, queueTs);
    assert d == Queued;
    var queued := PendingReport(app.anonId.value, app.visits, queueTs);
    assert app.store.pendingReports == [queued];
    app.FlushPending([ReportBody(true)]);
    assert ResolvedIds([queued], [ReportBody(true)], 1) == {queued.anonId};
  }

  /**
   * Once completion is reported, running the visits effect again sends
   * nothing and changes nothing but the persisted ledger.
   */
  method NoSecondReport(app: App, reply: ReportReply, ts: Timestamp) returns (d: Delivery)
    requires app.Valid() && app.reported
    modifies app
    ensures d == NotDue && app.reported
    ensures app.requests == old(app.requests)
    ensures app.store == old(app.store).(visits := app.visits)
  {
    d := app.VisitsEffect(reply, ts, ts);
  }
}

=== FILE: wrappers.dfy ===
/** Failure-carrying values used across the model. */
module Wrappers {

  /** A value that may be missing: `null`/`undefined` in the application. */
  datatype Option<+T> = None | Some(value: T)

  /** An outcome that is either a value or the error the application reports. */
  datatype Result<+R, +E> = Success(value: R) | Failure(error: E)
}
